=== FILE: README.md ===
# Sword gateway shard: connection control

This project models the connection control of one gateway shard of Sword, a
Discord client library. A shard (`Sources/Sword/Gateway/Shard.swift`) owns a
WebSocket session to the gateway. It handles the payloads and closes the
socket reports, and it sends identify, voice-state and member-request
commands through two rate-limited buckets. It also starts, stops and
reconnects its session.

The model is functional. A shard is an immutable `Shards.Shard` record, and
every handler returns a `Step`: the next shard plus the effects the handler
performs, in order. The effects are emits to the client, log and console
lines, bucket submissions, socket creation, opening and closing, and the
deferred reconnect. Nothing the shard cannot see itself is modelled. Those
collaborators are parameters in `Shards.Env`:

- the client's token, intents and presence;
- the close-code table `CloseOP(rawValue:)`;
- the payload codec;
- the URL parser.

The socket's `readyState` is an input as well, because the transport owns it.

Modules:

- `Options`, `Json` and `Decimal` are small supporting definitions. `Decimal`
  covers the decimal text of integers used in bucket names and snowflake
  descriptions.
- `Payloads` holds the gateway envelope, opcodes, close classes and socket
  messages.
- `Commands` holds the data dictionaries of the commands the shard sends.
- `Shards` holds the shard's state, its handlers, the close-code policy and
  the effect counts.
- `SocketDelegate` holds the four `SocketDelegateWrapper` callbacks.
- `Lifecycle` runs a shard over any sequence of inputs. It states what every
  such run does in terms of the inputs alone:
  - which emits reach the client;
  - which bucket each send uses;
  - how many reconnects are deferred;
  - which sequence number the next heartbeat acknowledges.

Two behaviours of `Shard.swift` worth knowing:

- **Fatal close codes.** On invalid token, invalid shard or sharding
  required, `handleDisconnect` only prints a console line (Shard.swift
  83-86, 92-93). It does not call `stop()`, so `isReconnecting` stays true
  and the session is neither closed nor cleared. `Shards.FatalCloseOnlyPrints`
  states exactly this.
- **Reconnect reuses the session.** `reconnect()` never clears the session,
  so `start()` reopens the existing socket rather than creating a fresh one
  (Shard.swift 156-171, 209-217). `Shards.Start` and `Shards.Reconnect`
  state that the session is reused. Whether the transport accepts `open()`
  on a socket that has already closed is outside this model.

## Model

| member | source | states |
|---|---|---|
| Shards.Init | Sources/Sword/Gateway/Shard.swift:33-52 | A new shard is disconnected, not reconnecting, has no missed acks, sequence number, session or session id, and carries the id, shard count and URL it was given; its global bucket allows 120 and its presence bucket 5 sends per 60 seconds, under two different names |
| Shards.BucketNamesIdentifyShard | Sources/Sword/Gateway/Shard.swift:41-51 | Bucket names are per shard: equal global (or presence) names imply equal shard ids, and no global name equals any presence name |
| Shards.UnrecognizedLineNamesCode | Sources/Sword/Gateway/Shard.swift:77 | The unrecognised-response log line names its close code: two such lines are equal only for the same code |
| Shards.Start | Sources/Sword/Gateway/Shard.swift:207-221 | Only the session and the missed-ack counter change; an existing session is reused and opened; without one a socket is created for the gateway URL and opened, unless the URL does not parse, in which case nothing at all happens; exactly one open happens iff a session exists afterwards, and the counter is zero whenever it does; no other effect kind occurs |
| Shards.Stop | Sources/Sword/Gateway/Shard.swift:193-204 | Connected, reconnecting and missed acks are cleared and nothing else changes (the session is kept); the effects are exactly a close of the session, if there is one, followed by the stopping line, and nothing else |
| Shards.StopIdempotent | Sources/Sword/Gateway/Shard.swift:193-204 | Stopping a stopped shard leaves the same state and repeats the same effects |
| Shards.Reconnect | Sources/Sword/Gateway/Shard.swift:156-171 | In order: the socket is closed iff a session exists and is open, then the resuming line is logged, then start runs; connected and missed acks are cleared before start, and the resulting state is the one start leaves from that reset state; the socket is opened exactly as often as start opens it; nothing reaches the client or a bucket |
| Shards.ReconnectLogsOnlyResuming | Sources/Sword/Gateway/Shard.swift:156-171 | The resuming line is the only line a reconnect logs |
| Shards.DeferredReconnect | Sources/Sword/Gateway/Shard.swift:87-91 | When the deferred closure runs it warns about the loss of internet first, then performs exactly a reconnect's effects in the same order and leaves the state a reconnect leaves |
| Shards.HandlePayload | Sources/Sword/Gateway/Shard.swift:56-70 | The payload's sequence number, when present, is cached whatever else happens, and nothing else in the state changes; a payload without an event name goes only to the gateway handler; one with an event name but non-dictionary data is dropped; otherwise the event handler runs and then exactly one payload emit carries the encoded payload |
| Shards.FatalLine | Sources/Sword/Gateway/Shard.swift:83-93 | Each fatal class has its own console line: invalid bot token, invalid shard, or sharding required |
| Shards.ReactToClose | Sources/Sword/Gateway/Shard.swift:76-96 | A code is fatal (not reconnected) iff the table maps it to authentication failed, invalid shard or sharding required, and then the state is kept and the only effect is that class's own console line; a loss of internet schedules one reconnect 10 seconds later and changes nothing now; an unrecognised code logs the unrecognised-response line and then performs exactly a reconnect's effects; any other recognised code is exactly a reconnect; the reconnecting flag is untouched and the shard never becomes connected |
| Shards.ReactToCloseCounts | Sources/Sword/Gateway/Shard.swift:76-96 | Reacting to a close never emits to the client or enqueues; it defers a reconnect exactly on a loss of internet, logs the resuming line exactly when the policy reconnects at once, and logs the unrecognised-response line exactly when the code is not in the table |
| Shards.HandleDisconnect | Sources/Sword/Gateway/Shard.swift:72-97 | The shard is flagged as reconnecting and the disconnect is emitted first with the shard's id, exactly once; what follows, state and effects, is exactly what the close code's class calls for from the flagged state; identity, buckets and sequence number are kept; the shard never becomes connected; no payload emit and no bucket submission; a reconnect is deferred iff the code means loss of internet |
| Shards.FatalCloseOnlyPrints | Sources/Sword/Gateway/Shard.swift:82-93 | When the policy does not reconnect, the code is one of the three fatal classes, the only change is the reconnecting flag, and the effects are exactly the disconnect emit followed by that class's console line; the shard is not stopped |
| Shards.NoInternetDefersReconnect | Sources/Sword/Gateway/Shard.swift:87-91 | On a loss of internet the effects are exactly the disconnect emit and a reconnect scheduled 10 seconds later |
| Shards.RecoverableCloseReconnects | Sources/Sword/Gateway/Shard.swift:76-96 | On an unrecognised code or any other recognised code, the effects are exactly the disconnect emit, then the unrecognised-response line iff the code is not in the table, then everything a reconnect does (close if open, resuming line, start); the state is the one the reconnect leaves, and the resuming line is logged once |
| Shards.UnrecognizedCloseWritesCode | Sources/Sword/Gateway/Shard.swift:76-78 | On an unrecognised code the first text written after the disconnect emit is "Connection closed with unrecognized response <code>.", and that text identifies the code |
| Shards.Send | Sources/Sword/Gateway/Shard.swift:182-191 | A send changes no state and submits exactly one item carrying the text, to the presence bucket for presence sends and to the global bucket otherwise |
| Shards.SendRouting | Sources/Sword/Gateway/Shard.swift:182-191 | On a shard built by its initializer, the presence bucket (5 per 60 s) is used iff the send is a presence send, and every other send goes to the 120-per-60-s bucket |
| Shards.Identify | Sources/Sword/Gateway/Shard.swift:99-131 | Identify changes no state and queues exactly one item, on the global bucket; with a codec that reads back what it writes, that item decodes to the identify command built from the client's token, intents and presence and the shard's [id, shardCount] pair (so its data has exactly the keys and values `Commands.IdentifyData` states), and carries a presence iff the client has one |
| Shards.JoinVoiceChannel | Sources/Sword/Gateway/Shard.swift:135-143 | Joining changes no state and queues one item on the global bucket; read back, it is exactly the voice-state update `Commands.JoinVoicePayload` describes, whose guild_id and channel_id parse back to the guild and channel, with mute and deaf false |
| Shards.LeaveVoiceChannel | Sources/Sword/Gateway/Shard.swift:145-153 | Leaving changes no state and queues one item on the global bucket; read back, it is exactly the voice-state update `Commands.LeaveVoicePayload` describes, whose guild_id parses back to the guild, with a null channel and mute and deaf false |
| Shards.RequestOfflineMembers | Sources/Sword/Gateway/Shard.swift:173-180 | Requesting members changes no state and queues one item on the global bucket; read back, it is exactly the member request `Commands.RequestOfflineMembersPayload` describes, whose guild_id parses back to the guild, with an empty query and limit 0 |
| Commands.ConnectionProperties | Sources/Sword/Gateway/Shard.swift:115-119 | The properties object has exactly the keys $os, $browser and $device, with the given OS name and "Sword" for the other two |
| Commands.IdentifyData | Sources/Sword/Gateway/Shard.swift:112-127 | The identify data has exactly token, intents, properties, compress, large_threshold and shard, plus presence iff the client has one; compress is false, large_threshold is 250, shard is [id, shardCount] |
| Commands.IdentifyPayload | Sources/Sword/Gateway/Shard.swift:129 | The identify envelope has the identify opcode, no sequence number and no event name, and carries the identify data |
| Commands.JoinVoicePayload | Sources/Sword/Gateway/Shard.swift:136-141 | A voice-state update with exactly guild_id, channel_id, self_mute and self_deaf; the ids are the snowflakes' descriptions; mute and deaf are false |
| Commands.LeaveVoicePayload | Sources/Sword/Gateway/Shard.swift:146-151 | The same voice-state update with channel_id null |
| Commands.JoinLeaveDifferOnlyInChannel | Sources/Sword/Gateway/Shard.swift:135-153 | Leaving is joining with the channel set to null, and the two payloads are never equal |
| Commands.RequestOfflineMembersPayload | Sources/Sword/Gateway/Shard.swift:174-178 | A guild-member request with exactly guild_id, an empty query and limit 0 |
| Commands.GuildIdReadsBack | Sources/Sword/Gateway/Shard.swift:137-148 | The guild and channel ids written into voice and member commands read back as the same snowflakes |
| Commands.HeartbeatPayload | Sources/Sword/Gateway/Shard.swift:17-19 | The heartbeat carries the last sequence number when there is one, and null otherwise |
| Payloads.Description | Sources/Sword/Gateway/Shard.swift:137 | A snowflake's description is a non-empty string of decimal digits |
| Options.Lookup | Sources/Sword/Gateway/Shard.swift:76 | A close code is recognised iff it is in the table, and then it maps to the table's class |
| SocketDelegate.DidOpen | Sources/Sword/Gateway/Shard.swift:232-234 | The shard becomes connected, nothing else changes, and nothing else happens |
| SocketDelegate.DidReceiveMessage | Sources/Sword/Gateway/Shard.swift:236-240 | A text frame is decoded and handled as a payload; any other message is ignored; only the sequence number can change |
| SocketDelegate.DidFailWithError | Sources/Sword/Gateway/Shard.swift:242-247 | The shard is disconnected; an error carrying a code is handled as a close with that code, and one without a code does nothing more |
| SocketDelegate.DidCloseWithCode | Sources/Sword/Gateway/Shard.swift:249-252 | The shard is disconnected and reconnecting, and the close is handled, starting with the disconnect emit |
| Lifecycle.Notify | Sources/Sword/Gateway/Shard.swift:225-253 | No socket notification changes the shard's identity or buckets; only a delivered payload with a sequence number moves the last sequence number |
| Lifecycle.Control | Sources/Sword/Gateway/Shard.swift:156-221 | Start, stop, reconnect and the deferred reconnect keep identity, buckets and the last sequence number |
| Lifecycle.Outbound | Sources/Sword/Gateway/Shard.swift:99-191 | Sends and commands change no state at all |
| Lifecycle.Apply | Sources/Sword/Gateway/Shard.swift:56-253 | No input changes the shard's identity or buckets; the last sequence number moves only to the one a delivered payload carries |
| Lifecycle.Run | Sources/Sword/Gateway/Shard.swift:56-253 | Over any run the shard's identity and buckets are kept, so a shard built by its initializer stays well formed |
| Lifecycle.RunLastSeq | Sources/Sword/Gateway/Shard.swift:57-59 | After any run the shard holds the last sequence number any delivered payload carried, or its initial one if none carried one |
| Lifecycle.LatestSeqKeeps | Sources/Sword/Gateway/Shard.swift:57-59 | Once a sequence number is known, no later input makes the shard forget it |
| Lifecycle.HeartbeatAcknowledgesLatest | Sources/Sword/Gateway/Shard.swift:17-19 | The heartbeat after any run carries the latest delivered sequence number, and is null only if the shard never had one |
| Lifecycle.TransportTally | Sources/Sword/Gateway/Shard.swift:225-253 | Each socket notification emits one payload iff it delivers a forwardable payload, one disconnect iff it carries a close code, defers a reconnect iff that code means loss of internet, and enqueues nothing |
| Lifecycle.MessageTally | Sources/Sword/Gateway/Shard.swift:232-240 | Opening emits nothing; a message emits one payload iff it delivers a forwardable payload, and nothing else outward |
| Lifecycle.CloseTally | Sources/Sword/Gateway/Shard.swift:242-252 | A close or an error emits one disconnect iff it carries a code, defers a reconnect iff that code means loss of internet, and emits no payload and enqueues nothing |
| Lifecycle.ControlTally | Sources/Sword/Gateway/Shard.swift:156-221 | Start, stop, reconnect and the deferred reconnect reach neither the client, the buckets nor the timer queue |
| Lifecycle.ReconnectTally | Sources/Sword/Gateway/Shard.swift:156-171 | A reconnect, now or deferred, reaches neither the client, the buckets nor the timer queue |
| Lifecycle.StartStopTally | Sources/Sword/Gateway/Shard.swift:193-221 | Start and stop reach neither the client, the buckets nor the timer queue |
| Lifecycle.OutboundTally | Sources/Sword/Gateway/Shard.swift:99-191 | Each send or command enqueues exactly once, on the presence bucket iff it is a presence send |
| Lifecycle.StepTally | Sources/Sword/Gateway/Shard.swift:56-253 | For every input, its number of payload emits, disconnect emits, deferred reconnects and submissions to each bucket is the number read off the input alone |
| Lifecycle.RunTally | Sources/Sword/Gateway/Shard.swift:56-253 | Over any run of a well-formed shard: the client gets one payload emit per forwardable payload delivered and one disconnect emit per close or coded error; one reconnect is deferred per loss of internet; the presence bucket receives exactly the presence sends, and the global bucket every other send and command |

## Left out

- Lifecycle.RunTally: the counts cover only the effects of Shard.swift's own handlers. The sends, emits, reconnects and heartbeats that `handleGateway` and `handleEvent` cause (for example an identify after the gateway's hello) are not counted, because those handlers are recorded as effects and not run.
- Lifecycle.Apply: the kept fields, including the session id, are kept only because `handleGateway` and `handleEvent` are not run. In the full client a ready event stores the session id, and the gateway handler may send or reconnect.
- Lifecycle.Run: the same holds over a whole run, for the same reason.
- Shards.Start: only the SocketRocket branch is modelled. The other platform's branch of `start()` is empty in Shard.swift.
- The model is the macOS build: `start()` follows its SocketRocket branch, and the voice helpers, which exist only under `#if os(macOS) || os(Linux)` (Shard.swift 134, 154), are always present.
- Shards.Start: whether the transport accepts `open()` on a socket that has already been closed belongs to SocketRocket, which is not part of this model.
- Lifecycle.Run: each handler is modelled as one uninterrupted step, and a run applies whole handlers one after another in a single order. In the code, the deferred closure runs on the client's global queue (Shard.swift 88-90), bucket work items read `session` later from inside `Bucket` (183-190), and the socket callbacks arrive from the transport (232-252). These paths read and write `session`, `isConnected` and `acksMissed` without a lock, for example the check-then-close at 158-159 and the check-then-assign of `session` at 209-213. Interleavings inside a handler, and the data races they allow, are not modelled, so `Lifecycle.RunTally` and `Lifecycle.RunLastSeq` speak only about serial runs.
- Shards.Send: the submitted item stands for the work item; the socket send the bucket performs later is not modelled, because it happens inside `Bucket` on a dispatch queue.
- Shards.HandlePayload: `handleGateway` and `handleEvent` appear as effects carrying their arguments. Their own state changes, such as storing the session id or starting the heartbeat, are not modelled, because their bodies are not part of this model.
- Shards.DeferredReconnect: the 10-second delay is the `ScheduleReconnect` effect's argument. When the closure runs is an input (`DeferredReconnectFired`), and the dispatch queue's clock is not modelled.
- Shards.Identify: the OS name that conditional compilation selects is a parameter, not a platform check.
- Shards.Reconnect: the other platform's close (Shard.swift 162-164) is not modelled. It reads the Linux socket's own state, which the SocketRocket branch replaces.
- The periodic heartbeat (`heartbeat(at:)`, Gateway.swift:39) and its missed-ack handling are not modelled, because Shard.swift does not define them. Only the heartbeat payload (Shard.swift 17-19) is.
- `Gateway.swift`'s default `start()` and its private socket wrapper are not modelled. That wrapper is created only by that default `start()` (Gateway.swift:63), and Shard.swift defines its own `start()` and its own wrapper and uses only those (Shard.swift 212, 225).
- `Bucket`'s rate limiting is not modelled: it belongs to Bucket.swift, which is not part of this model. Only the name, limit and interval the shard configures are.
- The `Payload` codec is not modelled. `encode` and `decode` are parameters, and `Payload(op:data:)` is taken to leave the sequence number and event name absent.
- The raw values of `CloseOP` are not modelled. The table is a parameter that maps codes to the five classes the shard distinguishes.
- `Snowflake.description` is taken to be the id's decimal text.
- Weak and unowned references are not modelled: the model assumes the shard, its client and its delegate wrapper stay alive. The wrapper reaches the shard through `weak var shard` (Shard.swift 226), and once that reference is nil every callback does nothing (233, 238, 243-245, 250-251). The heartbeat queue's label is not modelled either.
- Shards.Identify: what the queued text says is stated only for a codec that reads back what it writes (`Shards.CodecRoundTrips`), because the codec is a parameter.
- Shards.JoinVoiceChannel: the same codec assumption applies to its queued text.
- Shards.LeaveVoiceChannel: the same codec assumption applies to its queued text.
- Shards.RequestOfflineMembers: the same codec assumption applies to its queued text.

=== FILE: commands.dfy ===
/**
 * The pure command builders of the shard (Shard.swift `identify`,
 * `joinVoiceChannel`, `leaveVoiceChannel`, `requestOfflineMembers` and the
 * `heartbeatPayload` property): each builds the outbound `Payload` that the
 * shard then encodes and queues.
 */
module Commands {
  import opened Options
  import opened Json
  import opened Payloads
  import Decimal

  /** The guild size above which the gateway leaves offline members out. */
  const LargeThreshold: int := 250

  /** The keys every identify command carries. */
  const IdentifyKeys: set<string> := {"token", "intents", "properties", "compress", "large_threshold", "shard"}

  /** The `properties` object of identify: the platform name, and the library as browser and device. */
  function ConnectionProperties(osName: string): (v: Value)
    ensures v.JObject? && v.fields.Keys == {"$os", "$browser", "$device"}
    ensures v.fields["$os"] == JString(osName)
    ensures v.fields["$browser"] == v.fields["$device"] == JString("Sword")
  {
    JObject(map["$os" := JString(osName), "$browser" := JString("Sword"), "$device" := JString("Sword")])
  }

  /** The data of the identify command. */
  function IdentifyData(token: string, intents: int, presence: Option<Value>, osName: string,
                        id: int, shardCount: int): (v: Value)
    ensures v.JObject?
    ensures v.fields.Keys == IdentifyKeys + (if presence.Some? then {"presence"} else {})
    ensures "presence" in v.fields <==> presence.Some?
    ensures presence.Some? ==> v.fields["presence"] == presence.value
    ensures v.fields["shard"] == JArray([JNumber(id), JNumber(shardCount)])
    ensures v.fields["compress"] == JBool(false)
    ensures v.fields["large_threshold"] == JNumber(LargeThreshold)
    ensures v.fields["token"] == JString(token) && v.fields["intents"] == JNumber(intents)
    ensures v.fields["properties"] == ConnectionProperties(osName)
  {
    var data := map[
      "token" := JString(token),
      "intents" := JNumber(intents),
      "properties" := ConnectionProperties(osName),
      "compress" := JBool(false),
      "large_threshold" := JNumber(LargeThreshold),
      "shard" := JArray([JNumber(id), JNumber(shardCount)])
    ];
    match presence
    case Some(p) => JObject(data["presence" := p])
    case None => JObject(data)
  }

  function IdentifyPayload(token: string, intents: int, presence: Option<Value>, osName: string,
                           id: int, shardCount: int): (p: Payload)
    ensures p.op == Identify && p.s.None? && p.t.None?
    ensures p.d == IdentifyData(token, intents, presence, osName, id, shardCount)
  {
    Command(Identify, IdentifyData(token, intents, presence, osName, id, shardCount))
  }

  /** Voice-state data shared by join and leave: never self-muted, never self-deafened. */
  function VoiceStateData(guildId: Snowflake, channel: Value): Value {
    JObject(map[
      "guild_id" := JString(Description(guildId)),
      "channel_id" := channel,
      "self_mute" := JBool(false),
      "self_deaf" := JBool(false)
    ])
  }

  function JoinVoicePayload(channelId: Snowflake, guildId: Snowflake): (p: Payload)
    ensures p.op == VoiceStateUpdate && p.s.None? && p.t.None? && p.d.JObject?
    ensures p.d.fields.Keys == {"guild_id", "channel_id", "self_mute", "self_deaf"}
    ensures p.d.fields["guild_id"] == JString(Description(guildId))
    ensures p.d.fields["channel_id"] == JString(Description(channelId))
    ensures p.d.fields["self_mute"] == p.d.fields["self_deaf"] == JBool(false)
  {
    Command(VoiceStateUpdate, VoiceStateData(guildId, JString(Description(channelId))))
  }

  function LeaveVoicePayload(guildId: Snowflake): (p: Payload)
    ensures p.op == VoiceStateUpdate && p.s.None? && p.t.None? && p.d.JObject?
    ensures p.d.fields.Keys == {"guild_id", "channel_id", "self_mute", "self_deaf"}
    ensures p.d.fields["guild_id"] == JString(Description(guildId))
    ensures p.d.fields["channel_id"] == JNull
    ensures p.d.fields["self_mute"] == p.d.fields["self_deaf"] == JBool(false)
  {
    Command(VoiceStateUpdate, VoiceStateData(guildId, JNull))
  }

  /** Leaving is joining with the channel cleared: the two commands differ in `channel_id` only. */
  lemma JoinLeaveDifferOnlyInChannel(channelId: Snowflake, guildId: Snowflake)
    ensures JoinVoicePayload(channelId, guildId).d.fields["channel_id" := JNull]
         == LeaveVoicePayload(guildId).d.fields
    ensures JoinVoicePayload(channelId, guildId) != LeaveVoicePayload(guildId)
  {
  }

  function RequestOfflineMembersPayload(guildId: Snowflake): (p: Payload)
    ensures p.op == RequestGuildMember && p.s.None? && p.t.None? && p.d.JObject?
    ensures p.d.fields.Keys == {"guild_id", "query", "limit"}
    ensures p.d.fields["guild_id"] == JString(Description(guildId))
    ensures p.d.fields["query"] == JString("") && p.d.fields["limit"] == JNumber(0)
  {
    Command(RequestGuildMember, JObject(map[
      "guild_id" := JString(Description(guildId)),
      "query" := JString(""),
      "limit" := JNumber(0)
    ]))
  }

  /**
   * The guild a voice-state or member request names can be read back from
   * its `guild_id` text, so commands for different guilds never collide.
   */
  lemma GuildIdReadsBack(channelId: Snowflake, guildId: Snowflake)
    ensures Decimal.ParseNat(JoinVoicePayload(channelId, guildId).d.fields["guild_id"].str) == guildId
    ensures Decimal.ParseNat(LeaveVoicePayload(guildId).d.fields["guild_id"].str) == guildId
    ensures Decimal.ParseNat(RequestOfflineMembersPayload(guildId).d.fields["guild_id"].str) == guildId
    ensures Decimal.ParseNat(JoinVoicePayload(channelId, guildId).d.fields["channel_id"].str) == channelId
  {
    Decimal.ParseNatToString(guildId);
    Decimal.ParseNatToString(channelId);
  }

  /** `heartbeatPayload`: a heartbeat carrying the last sequence number seen, or null before any. */
  function HeartbeatPayload(lastSeq: Option<int>): (p: Payload)
    ensures p.op == Heartbeat && p.s.None? && p.t.None?
    ensures p.d.JNumber? <==> lastSeq.Some?
    ensures p.d.JNull? <==> lastSeq.None?
    ensures lastSeq.Some? ==> p.d.n == lastSeq.value
  {
    match lastSeq
    case Some(n) => Command(Heartbeat, JNumber(n))
    case None => Command(Heartbeat, JNull)
  }
}

=== FILE: decimal.dfy ===
/**
 * Decimal rendering of integers, as Swift's `description` and string
 * interpolation produce it: an optional leading `-`, then the digits of the
 * magnitude with no leading zero. The parser is the partner that shows the
 * rendering loses nothing, so two different integers never share a text.
 */
module Decimal {
  import opened Options

  predicate IsDigit(c: char) {
    '0' <= c <= '9'
  }

  predicate AllDigits(s: string) {
    forall i :: 0 <= i < |s| ==> IsDigit(s[i])
  }

  function DigitChar(d: nat): (c: char)
    requires d < 10
    ensures IsDigit(c)
  {
    (48 + d) as char
  }

  function DigitValue(c: char): (d: nat)
    requires IsDigit(c)
    ensures d < 10
  {
    (c as int) - 48
  }

  /** Digits of `n`, most significant first. */
  function NatToString(n: nat): (r: string)
    ensures |r| >= 1 && AllDigits(r)
    ensures r[0] == '0' <==> n == 0
    ensures n < 10 <==> |r| == 1
  {
    if n < 10 then [DigitChar(n)] else NatToString(n / 10) + [DigitChar(n % 10)]
  }

  /** Value of a string of digits, most significant first; the empty string is 0. */
  function ParseNat(s: string): nat
    requires AllDigits(s)
  {
    if |s| == 0 then 0 else ParseNat(s[..|s| - 1]) * 10 + DigitValue(s[|s| - 1])
  }

  lemma {:induction false} ParseNatToString(n: nat)
    ensures ParseNat(NatToString(n)) == n
  {
    if n >= 10 {
      var r := NatToString(n);
      assert r[..|r| - 1] == NatToString(n / 10);
      ParseNatToString(n / 10);
    } else {
      assert NatToString(n)[..0] == [];
    }
  }

  lemma NatToStringInjective(a: nat, b: nat)
    ensures NatToString(a) == NatToString(b) ==> a == b
  {
    ParseNatToString(a);
    ParseNatToString(b);
  }

  /** What an integer's rendering looks like: `-` then a nonzero magnitude, or a magnitude alone. */
  predicate IsIntText(s: string) {
    || (|s| >= 1 && AllDigits(s))
    || (|s| >= 2 && s[0] == '-' && AllDigits(s[1..]) && s[1] != '0')
  }

  /** Swift's `Int.description`. */
  function IntToString(i: int): (r: string)
    ensures IsIntText(r)
    ensures r[0] == '-' <==> i < 0
  {
    if i < 0 then "-" + NatToString(-i) else NatToString(i)
  }

  function ParseInt(s: string): int
    requires IsIntText(s)
  {
    var magnitude: int := if s[0] == '-' then ParseNat(s[1..]) else ParseNat(s);
    if s[0] == '-' then 0 - magnitude else magnitude
  }

  lemma IntToStringRoundTrip(i: int)
    ensures ParseInt(IntToString(i)) == i
  {
    var r := IntToString(i);
    if i < 0 {
      var digits := NatToString(-i);
      assert r == "-" + digits;
      assert r[1..] == digits;
      ParseNatToString(-i);
    } else {
      assert r == NatToString(i);
      ParseNatToString(i);
    }
  }

  lemma IntToStringInjective(a: int, b: int)
    ensures IntToString(a) == IntToString(b) ==> a == b
  {
    IntToStringRoundTrip(a);
    IntToStringRoundTrip(b);
  }
}

=== FILE: delegate.dfy ===
/**
 * The socket delegate of a shard (Shard.swift `SocketDelegateWrapper`): the
 * transport's open, message, error and close notifications, each turned
 * into a change of the shard's state and the handler it hands over to.
 */
module SocketDelegate {
  import opened Options
  import opened Payloads
  import opened Shards

  /** The socket opened: the shard is connected, and nothing else happens. */
  function DidOpen(s: Shard): (r: Step)
    ensures r.shard.isConnected && r.effects == []
    ensures r.shard.(isConnected := s.isConnected) == s
  {
    Step(s.(isConnected := true), [])
  }

  /** A text frame is decoded and handled as a payload; anything else is ignored. */
  function DidReceiveMessage(s: Shard, env: Env, message: Message): (r: Step)
    ensures message.BinaryFrame? ==> r == Step(s, [])
    ensures message.TextFrame? ==> r == HandlePayload(s, env, env.decode(message.text))
    ensures r.shard.(lastSeq := s.lastSeq) == s
  {
    match message
    case TextFrame(text) => HandlePayload(s, env, env.decode(text))
    case BinaryFrame => Step(s, [])
  }

  /** The socket failed: the shard is disconnected, and an error that carries a code is handled as a close with that code. */
  function DidFailWithError(s: Shard, env: Env, errorCode: Option<int>, socketState: ReadyState): (r: Step)
    ensures !r.shard.isConnected
    ensures errorCode.None? ==> r == Step(s.(isConnected := false), [])
    ensures errorCode.Some? ==> r == HandleDisconnect(s.(isConnected := false), env, errorCode.value, socketState)
    ensures SameIdentity(s, r.shard) && r.shard.lastSeq == s.lastSeq
  {
    var down := s.(isConnected := false);
    match errorCode
    case Some(code) => HandleDisconnect(down, env, code, socketState)
    case None => Step(down, [])
  }

  /** The socket closed: the shard is disconnected and the close code is handled. */
  function DidCloseWithCode(s: Shard, env: Env, code: int, socketState: ReadyState): (r: Step)
    ensures !r.shard.isConnected && r.shard.isReconnecting
    ensures r == HandleDisconnect(s.(isConnected := false), env, code, socketState)
    ensures r.effects[0] == EmitDisconnect(s.id)
  {
    HandleDisconnect(s.(isConnected := false), env, code, socketState)
  }
}

=== FILE: json.dfy ===
/**
 * The payload data the gateway exchanges: Swift's `Any` as it appears in
 * `[String: Any]` dictionaries, as a tagged value. Dictionaries are
 * unordered in Swift, so objects are maps.
 */
module Json {

  datatype Value =
    | JNull
    | JBool(b: bool)
    | JNumber(n: int)
    | JString(str: string)
    | JArray(items: seq<Value>)
    | JObject(fields: map<string, Value>)
}

=== FILE: lifecycle.dfy ===
/**
 * A shard's life as a sequence of inputs: transport notifications, the
 * deferred reconnect firing, and the calls its owner makes. `Run` applies
 * them one after another and collects the effects in order; the lemmas state
 * what any such run does, in terms of the inputs alone.
 */
module Lifecycle {
  import opened Options
  import opened Payloads
  import opened Shards
  import SocketDelegate
  import Commands
  import Json

  datatype Input =
    | Opened
    | Received(message: Message)
    | Failed(errorCode: Option<int>, socketState: ReadyState)
    | Closed(code: int, socketState: ReadyState)
    | DeferredReconnectFired(socketState: ReadyState)
    | StartCalled
    | StopCalled
    | ReconnectCalled(socketState: ReadyState)
    | SendCalled(text: string, presence: bool)
    | IdentifyCalled(osName: string)
    | JoinVoiceCalled(channelId: Snowflake, guildId: Snowflake)
    | LeaveVoiceCalled(guildId: Snowflake)
    | RequestMembersCalled(guildId: Snowflake)

  /** The payload an input hands to `handlePayload`, if any. */
  function Delivered(env: Env, i: Input): Option<Payload> {
    if i.Received? && i.message.TextFrame? then Some(env.decode(i.message.text)) else None
  }

  /** The close code an input hands to `handleDisconnect`, if any. */
  function CloseCode(i: Input): Option<int> {
    match i
    case Closed(code, _) => Some(code)
    case Failed(Some(code), _) => Some(code)
    case _ => None
  }

  /** A send that goes to the presence bucket. */
  predicate PresenceSend(i: Input) {
    i.SendCalled? && i.presence
  }

  /** A send or command that goes to the global bucket. */
  predicate GlobalSend(i: Input) {
    || (i.SendCalled? && !i.presence)
    || i.IdentifyCalled? || i.JoinVoiceCalled? || i.LeaveVoiceCalled? || i.RequestMembersCalled?
  }

  /** What a transport notification does: the socket delegate's four callbacks. */
  function Notify(s: Shard, env: Env, i: Input): (r: Step)
    requires i.Opened? || i.Received? || i.Failed? || i.Closed?
    ensures SameIdentity(s, r.shard)
    ensures r.shard.lastSeq ==
              (if Delivered(env, i).Some? && Delivered(env, i).value.s.Some? then Delivered(env, i).value.s else s.lastSeq)
  {
    match i
    case Opened => SocketDelegate.DidOpen(s)
    case Received(message) => SocketDelegate.DidReceiveMessage(s, env, message)
    case Failed(errorCode, socketState) => SocketDelegate.DidFailWithError(s, env, errorCode, socketState)
    case Closed(code, socketState) => SocketDelegate.DidCloseWithCode(s, env, code, socketState)
  }

  /** What starting, stopping or reconnecting does. */
  function Control(s: Shard, env: Env, i: Input): (r: Step)
    requires i.DeferredReconnectFired? || i.StartCalled? || i.StopCalled? || i.ReconnectCalled?
    ensures SameIdentity(s, r.shard) && r.shard.lastSeq == s.lastSeq
  {
    match i
    case DeferredReconnectFired(socketState) => DeferredReconnect(s, env, socketState)
    case StartCalled => Start(s, env)
    case StopCalled => Stop(s)
    case ReconnectCalled(socketState) => Shards.Reconnect(s, env, socketState)
  }

  /** What a send or a gateway command does. */
  function Outbound(s: Shard, env: Env, i: Input): (r: Step)
    requires PresenceSend(i) || GlobalSend(i)
    ensures r.shard == s
  {
    match i
    case SendCalled(text, presence) => Send(s, text, presence)
    case IdentifyCalled(osName) => Shards.Identify(s, env, osName)
    case JoinVoiceCalled(channelId, guildId) => JoinVoiceChannel(s, env, channelId, guildId)
    case LeaveVoiceCalled(guildId) => LeaveVoiceChannel(s, env, guildId)
    case RequestMembersCalled(guildId) => RequestOfflineMembers(s, env, guildId)
  }

  /**
   * One input. Nothing an input does changes which shard this is or its
   * buckets; only a delivered payload that carries a sequence number moves
   * the last sequence number.
   */
  function Apply(s: Shard, env: Env, i: Input): (r: Step)
    ensures SameIdentity(s, r.shard)
    ensures r.shard.lastSeq ==
              (if Delivered(env, i).Some? && Delivered(env, i).value.s.Some? then Delivered(env, i).value.s else s.lastSeq)
  {
    if i.Opened? || i.Received? || i.Failed? || i.Closed? then Notify(s, env, i)
    else if i.DeferredReconnectFired? || i.StartCalled? || i.StopCalled? || i.ReconnectCalled? then Control(s, env, i)
    else Outbound(s, env, i)
  }

  function Run(s: Shard, env: Env, inputs: seq<Input>): (r: Step)
    ensures SameIdentity(s, r.shard)
    ensures Wf(s) ==> Wf(r.shard)
    decreases |inputs|
  {
    if |inputs| == 0 then Step(s, [])
    else
      var first := Apply(s, env, inputs[0]);
      var rest := Run(first.shard, env, inputs[1..]);
      Step(rest.shard, first.effects + rest.effects)
  }

  // ---------------------------------------------------------------------
  // The last sequence number

  /** The sequence number a shard holds after `inputs`, read off the inputs: the last one any delivered payload carried. */
  function LatestSeq(env: Env, inputs: seq<Input>, last: Option<int>): Option<int>
    decreases |inputs|
  {
    if |inputs| == 0 then last
    else
      var p := Delivered(env, inputs[0]);
      LatestSeq(env, inputs[1..], if p.Some? && p.value.s.Some? then p.value.s else last)
  }

  lemma {:induction false} RunLastSeq(s: Shard, env: Env, inputs: seq<Input>)
    ensures Run(s, env, inputs).shard.lastSeq == LatestSeq(env, inputs, s.lastSeq)
    decreases |inputs|
  {
    if |inputs| > 0 {
      RunLastSeq(Apply(s, env, inputs[0]).shard, env, inputs[1..]);
    }
  }

  /** Once a sequence number is known, no input makes the shard forget it. */
  lemma {:induction false} LatestSeqKeeps(env: Env, inputs: seq<Input>, last: Option<int>)
    ensures last.Some? ==> LatestSeq(env, inputs, last).Some?
    decreases |inputs|
  {
    if |inputs| > 0 {
      var p := Delivered(env, inputs[0]);
      LatestSeqKeeps(env, inputs[1..], if p.Some? && p.value.s.Some? then p.value.s else last);
    }
  }

  /**
   * The heartbeat a shard sends after any run acknowledges the last sequence
   * number delivered to it, and is empty only if none ever was.
   */
  lemma HeartbeatAcknowledgesLatest(s: Shard, env: Env, inputs: seq<Input>)
    ensures var hb := Commands.HeartbeatPayload(Run(s, env, inputs).shard.lastSeq);
            var latest := LatestSeq(env, inputs, s.lastSeq);
            && (latest.Some? ==> hb.d == Json.JNumber(latest.value))
            && (hb.d.JNull? ==> s.lastSeq.None?)
  {
    RunLastSeq(s, env, inputs);
    LatestSeqKeeps(env, inputs, s.lastSeq);
  }

  // ---------------------------------------------------------------------
  // What the client, the buckets and the timer queue see

  /** How many effects of an outward kind one input produces, read off the input alone. */
  function Expected(k: Tracked, s: Shard, env: Env, i: Input): nat {
    match k
    case PayloadEmits =>
      if Delivered(env, i).Some? && Forwardable(Delivered(env, i).value) then 1 else 0
    case DisconnectEmits =>
      if CloseCode(i).Some? then 1 else 0
    case Deferrals =>
      if CloseCode(i).Some? && Lookup(env.closeOP, CloseCode(i).value) == Some(NoInternet) then 1 else 0
    case QueuedTo(b) =>
      if (b == s.presenceBucket && PresenceSend(i)) || (b == s.globalBucket && GlobalSend(i)) then 1 else 0
    case _ => 0
  }

  function Tally(k: Tracked, s: Shard, env: Env, inputs: seq<Input>): nat
    decreases |inputs|
  {
    if |inputs| == 0 then 0 else Expected(k, s, env, inputs[0]) + Tally(k, s, env, inputs[1..])
  }

  lemma SingleEnqueueCount(k: Tracked, b: Bucket, text: string)
    ensures Count(k, [Enqueue(b, text)]) == (if k == QueuedTo(b) then 1 else 0)
  {
    CountSingle(k, Enqueue(b, text));
  }

  /** The transport's notifications produce the emits and deferrals their payload or close code predicts, and enqueue nothing. */
  lemma TransportTally(k: Tracked, s: Shard, env: Env, i: Input)
    requires Outward(k)
    requires i.Opened? || i.Received? || i.Failed? || i.Closed?
    ensures Count(k, Apply(s, env, i).effects) == Expected(k, s, env, i)
  {
    if i.Opened? || i.Received? {
      MessageTally(k, s, env, i);
    } else {
      CloseTally(k, s, env, i);
    }
  }

  /** Opening and messages: one payload emit iff a forwardable payload is delivered, and nothing else outward. */
  lemma MessageTally(k: Tracked, s: Shard, env: Env, i: Input)
    requires Outward(k)
    requires i.Opened? || i.Received?
    ensures Count(k, Apply(s, env, i).effects) == Expected(k, s, env, i)
  {
  }

  /** Closes and coded errors: one disconnect emit, and a deferred reconnect iff the code means loss of internet. */
  lemma CloseTally(k: Tracked, s: Shard, env: Env, i: Input)
    requires Outward(k)
    requires i.Failed? || i.Closed?
    ensures Count(k, Apply(s, env, i).effects) == Expected(k, s, env, i)
  {
  }

  /** Starting, stopping and reconnecting produce no outward effect. */
  lemma ControlTally(k: Tracked, s: Shard, env: Env, i: Input)
    requires Outward(k)
    requires i.DeferredReconnectFired? || i.StartCalled? || i.StopCalled? || i.ReconnectCalled?
    ensures Count(k, Apply(s, env, i).effects) == Expected(k, s, env, i)
  {
    if i.DeferredReconnectFired? || i.ReconnectCalled? {
      ReconnectTally(k, s, env, i);
    } else {
      StartStopTally(k, s, env, i);
    }
  }

  /** Reconnecting, now or deferred, reaches neither the client, the buckets nor the timer queue. */
  lemma ReconnectTally(k: Tracked, s: Shard, env: Env, i: Input)
    requires Outward(k)
    requires i.DeferredReconnectFired? || i.ReconnectCalled?
    ensures Count(k, Apply(s, env, i).effects) == Expected(k, s, env, i)
  {
  }

  /** Starting and stopping reach neither the client, the buckets nor the timer queue. */
  lemma StartStopTally(k: Tracked, s: Shard, env: Env, i: Input)
    requires Outward(k)
    requires i.StartCalled? || i.StopCalled?
    ensures Count(k, Apply(s, env, i).effects) == Expected(k, s, env, i)
  {
  }

  /** Every send and command enqueues once, on the bucket its kind selects. */
  lemma OutboundTally(k: Tracked, s: Shard, env: Env, i: Input)
    requires Wf(s) && Outward(k)
    requires PresenceSend(i) || GlobalSend(i)
    ensures Count(k, Apply(s, env, i).effects) == Expected(k, s, env, i)
  {
    BucketNamesIdentifyShard(s.id, s.id);
    var r := Apply(s, env, i);
    var b := if PresenceSend(i) then s.presenceBucket else s.globalBucket;
    assert r.effects == [Enqueue(b, r.effects[0].text)];
    SingleEnqueueCount(k, b, r.effects[0].text);
  }

  /** One input produces exactly the outward effects the input alone predicts. */
  lemma StepTally(k: Tracked, s: Shard, env: Env, i: Input)
    requires Wf(s) && Outward(k)
    ensures Count(k, Apply(s, env, i).effects) == Expected(k, s, env, i)
  {
    if i.Opened? || i.Received? || i.Failed? || i.Closed? {
      TransportTally(k, s, env, i);
    } else if i.DeferredReconnectFired? || i.StartCalled? || i.StopCalled? || i.ReconnectCalled? {
      ControlTally(k, s, env, i);
    } else {
      OutboundTally(k, s, env, i);
    }
  }

  /**
   * Over any run, the client receives one payload emit per forwardable
   * payload and one disconnect emit per close; a reconnect is deferred once
   * per loss of internet; the presence bucket receives exactly the presence
   * sends and the global bucket every other send and command.
   */
  lemma {:induction false} RunTally(k: Tracked, s: Shard, env: Env, inputs: seq<Input>)
    requires Wf(s) && Outward(k)
    ensures Count(k, Run(s, env, inputs).effects) == Tally(k, s, env, inputs)
    decreases |inputs|
  {
    if |inputs| > 0 {
      var first := Apply(s, env, inputs[0]);
      var rest := Run(first.shard, env, inputs[1..]);
      StepTally(k, s, env, inputs[0]);
      RunTally(k, first.shard, env, inputs[1..]);
      CountConcat(k, first.effects, rest.effects);
      TallySameBuckets(k, s, first.shard, env, inputs[1..]);
    }
  }

  /** A tally reads only the shard's buckets. */
  lemma {:induction false} TallySameBuckets(k: Tracked, s: Shard, t: Shard, env: Env, inputs: seq<Input>)
    requires s.presenceBucket == t.presenceBucket && s.globalBucket == t.globalBucket
    ensures Tally(k, s, env, inputs) == Tally(k, t, env, inputs)
    decreases |inputs|
  {
    if |inputs| > 0 {
      TallySameBuckets(k, s, t, env, inputs[1..]);
    }
  }
}

=== FILE: options.dfy ===
/** Optional values, standing in for Swift optionals (`Int?`, `String?`, `SRWebSocket?`). */
module Options {

  datatype Option<+T> = None | Some(value: T)

  /** Failable lookup in a map, as a Swift `init?(rawValue:)` over a finite table. */
  function Lookup<K, V>(m: map<K, V>, k: K): (r: Option<V>)
    ensures r.Some? <==> k in m
    ensures r.Some? ==> r.value == m[k]
  {
    if k in m then Some(m[k]) else None
  }
}

=== FILE: payloads.dfy ===
/**
 * The collaborators of the shard that live outside Shard.swift, reduced to
 * the shape the shard relies on: the gateway opcodes, the `Payload`
 * envelope, the close-code classes and Discord snowflakes. Their numeric
 * raw values and the envelope's text encoding are not part of this model.
 */
module Payloads {
  import opened Options
  import opened Json
  import Decimal

  /** Gateway opcodes, by name only. */
  datatype Op =
    | Dispatch
    | Heartbeat
    | Identify
    | StatusUpdate
    | VoiceStateUpdate
    | Resume
    | Reconnect
    | RequestGuildMember
    | InvalidSession
    | Hello
    | HeartbeatACK

  /** The wire envelope: opcode, data, optional sequence number, optional event name. */
  datatype Payload = Payload(op: Op, d: Value, s: Option<int>, t: Option<string>)

  /** `Payload(op:data:)`: an outbound command carries neither a sequence number nor an event name. */
  function Command(op: Op, data: Value): Payload {
    Payload(op, data, None, None)
  }

  /**
   * The close codes the shard distinguishes; `OtherClose` stands for every
   * other case of the close-code enumeration. Which integers map to which
   * case is a table the shard is given (`CloseOP(rawValue:)`).
   */
  datatype CloseKind = AuthenticationFailed | InvalidShard | NoInternet | ShardingRequired | OtherClose

  /** A Discord id: an unsigned 64-bit integer. */
  type Snowflake = n: nat | n < 0x1_0000_0000_0000_0000

  /** `Snowflake.description`: the decimal text of the id. */
  function Description(id: Snowflake): (r: string)
    ensures Decimal.AllDigits(r) && |r| >= 1
  {
    Decimal.NatToString(id)
  }

  /** A frame as the transport delivers it: text, or anything else (binary data). */
  datatype Message = TextFrame(text: string) | BinaryFrame
}

=== FILE: shard.dfy ===
/**
 * The connection control of one gateway shard (Shard.swift), as pure
 * transitions: every handler takes the shard's state and its input and
 * returns the next state together with the effects the handler performs, in
 * order. Socket calls, emits to the client, log lines, bucket submissions
 * and the deferred reconnect are effects; nothing here performs them.
 */
module Shards {
  import opened Options
  import opened Json
  import opened Payloads
  import Commands
  import Decimal

  /** A rate-limited dispatch queue as the shard configures it: `limit` sends per `interval` seconds. */
  datatype Bucket = Bucket(name: string, limit: int, interval: int)

  /** The socket's `readyState`, owned by the transport and observed by the shard. */
  datatype ReadyState = Connecting | Open | Closing | Closed

  /** A socket the shard created for its gateway URL. */
  datatype Socket = Socket(url: string)

  datatype Shard = Shard(
    id: int,
    shardCount: int,
    gatewayUrl: string,
    globalBucket: Bucket,
    presenceBucket: Bucket,
    isConnected: bool,
    isReconnecting: bool,
    acksMissed: int,
    lastSeq: Option<int>,
    session: Option<Socket>,
    sessionId: Option<string>)

  /**
   * What a handler does besides changing the shard's state.
   * `ToGatewayHandler` and `ToEventHandler` are calls into the shard's
   * `handleGateway` and `handleEvent`, which are not part of this model.
   */
  datatype Effect =
    | EmitDisconnect(shardId: int)
    | EmitPayload(text: string)
    | ToGatewayHandler(payload: Payload)
    | ToEventHandler(data: map<string, Value>, eventName: string)
    | Log(line: Line)
    | Warn(line: Line)
    | Print(line: Line)
    | Enqueue(bucket: Bucket, text: string)
    | CreateSocket(url: string)
    | OpenSocket
    | CloseSocket
    | ScheduleReconnect(delaySeconds: int)

  datatype Step = Step(shard: Shard, effects: seq<Effect>)

  /**
   * What the shard reads from its owning client and from collaborators it
   * cannot see: the credentials and presence, the close-code table, the
   * envelope codec and the URL parser.
   */
  datatype Env = Env(
    token: string,
    intents: int,
    presence: Option<Value>,
    closeOP: map<int, CloseKind>,
    encode: Payload -> string,
    decode: string -> Payload,
    parsesUrl: string -> bool)

  /** The lines the shard writes to the console or the client's log. */
  datatype Line =
    | ResumingSession
    | StoppingConnection
    | LossOfInternet
    | InvalidBotToken
    | InvalidShardId
    | ShardingIsRequired
    | UnrecognizedResponse(code: int)

  /** The text of each line. */
  function Text(line: Line): string {
    match line
    case ResumingSession => "Disconnected from gateway... Resuming session"
    case StoppingConnection => "Stopping gateway connection..."
    case LossOfInternet => "Detected a loss of internet..."
    case InvalidBotToken => "[Sword] Invalid Bot Token"
    case InvalidShardId => "[Sword] Invalid Shard (We messed up here. Try again.)"
    case ShardingIsRequired => "[Sword] Sharding is required for this bot to run correctly."
    case UnrecognizedResponse(code) =>
      "Connection closed with unrecognized response " + Decimal.IntToString(code) + "."
  }

  /** The unrecognised-response line names its close code: two such lines are equal only for the same code. */
  lemma UnrecognizedLineNamesCode(a: int, b: int)
    ensures Text(UnrecognizedResponse(a)) == Text(UnrecognizedResponse(b)) ==> a == b
  {
    var head := "Connection closed with unrecognized response ";
    var x, y := Decimal.IntToString(a), Decimal.IntToString(b);
    assert Text(UnrecognizedResponse(a)) == head + x + ".";
    assert Text(UnrecognizedResponse(b)) == head + y + ".";
    if Text(UnrecognizedResponse(a)) == Text(UnrecognizedResponse(b)) {
      assert x == (head + x + ".")[|head|..|head| + |x|];
      assert y == (head + y + ".")[|head|..|head| + |y|];
      Decimal.IntToStringInjective(a, b);
    }
  }

  /** Seconds between a loss of internet and the reconnect it schedules. */
  const NoInternetDelay: int := 10

  // ---------------------------------------------------------------------
  // Construction

  function BucketPrefix(id: int): string {
    "me.azoy.sword.shard." + Decimal.IntToString(id)
  }

  function GlobalBucket(id: int): Bucket {
    Bucket(BucketPrefix(id) + ".global", 120, 60)
  }

  function PresenceBucket(id: int): Bucket {
    Bucket(BucketPrefix(id) + ".presence", 5, 60)
  }

  /** A shard's buckets are the ones its initializer configures for its id. */
  predicate Wf(s: Shard) {
    s.globalBucket == GlobalBucket(s.id) && s.presenceBucket == PresenceBucket(s.id)
  }

  /** The fields no handler of this model changes. */
  predicate SameIdentity(a: Shard, b: Shard) {
    && a.id == b.id
    && a.shardCount == b.shardCount
    && a.gatewayUrl == b.gatewayUrl
    && a.globalBucket == b.globalBucket
    && a.presenceBucket == b.presenceBucket
    && a.sessionId == b.sessionId
  }

  function Init(id: int, shardCount: int, gatewayUrl: string): (s: Shard)
    ensures Wf(s)
    ensures s.id == id && s.shardCount == shardCount && s.gatewayUrl == gatewayUrl
    ensures s.globalBucket.limit == 120 && s.globalBucket.interval == 60
    ensures s.presenceBucket.limit == 5 && s.presenceBucket.interval == 60
    ensures s.globalBucket.name != s.presenceBucket.name
    ensures !s.isConnected && !s.isReconnecting && s.acksMissed == 0
    ensures s.lastSeq.None? && s.session.None? && s.sessionId.None?
  {
    Shard(id, shardCount, gatewayUrl, GlobalBucket(id), PresenceBucket(id),
          false, false, 0, None, None, None)
  }

  /** Queue names are per shard: two shards with different ids never share a bucket. */
  lemma BucketNamesIdentifyShard(i: int, j: int)
    ensures GlobalBucket(i).name == GlobalBucket(j).name ==> i == j
    ensures PresenceBucket(i).name == PresenceBucket(j).name ==> i == j
    ensures GlobalBucket(i).name != PresenceBucket(j).name
  {
    var head := "me.azoy.sword.shard.";
    var x, y := Decimal.IntToString(i), Decimal.IntToString(j);
    assert GlobalBucket(i).name == head + x + ".global";
    assert GlobalBucket(j).name == head + y + ".global";
    assert PresenceBucket(i).name == head + x + ".presence";
    assert PresenceBucket(j).name == head + y + ".presence";
    if GlobalBucket(i).name == GlobalBucket(j).name {
      assert x == (head + x + ".global")[|head|..|head| + |x|];
      assert y == (head + y + ".global")[|head|..|head| + |y|];
      Decimal.IntToStringInjective(i, j);
    }
    if PresenceBucket(i).name == PresenceBucket(j).name {
      assert x == (head + x + ".presence")[|head|..|head| + |x|];
      assert y == (head + y + ".presence")[|head|..|head| + |y|];
      Decimal.IntToStringInjective(i, j);
    }
    var g, p := GlobalBucket(i).name, PresenceBucket(j).name;
    assert g[|g| - 1] == 'l' && p[|p| - 1] == 'e';
  }

  // ---------------------------------------------------------------------
  // Counting effects

  /** Kinds of effect whose number a handler's contract fixes. */
  datatype Tracked =
    | PayloadEmits
    | DisconnectEmits
    | Deferrals
    | QueuedTo(bucket: Bucket)
    | SocketOpens
    | SocketCloses
    | Logged(line: Line)

  /** The kinds that reach past the socket: the client, a bucket or the timer queue. */
  predicate Outward(k: Tracked) {
    k.PayloadEmits? || k.DisconnectEmits? || k.Deferrals? || k.QueuedTo?
  }

  predicate Matches(k: Tracked, e: Effect) {
    match k
    case PayloadEmits => e.EmitPayload?
    case DisconnectEmits => e.EmitDisconnect?
    case Deferrals => e.ScheduleReconnect?
    case QueuedTo(b) => e.Enqueue? && e.bucket == b
    case SocketOpens => e.OpenSocket?
    case SocketCloses => e.CloseSocket?
    case Logged(line) => e == Log(line)
  }

  function Count(k: Tracked, effects: seq<Effect>): nat {
    if |effects| == 0 then 0
    else (if Matches(k, effects[0]) then 1 else 0) + Count(k, effects[1..])
  }

  lemma {:induction false} CountConcat(k: Tracked, a: seq<Effect>, b: seq<Effect>)
    ensures Count(k, a + b) == Count(k, a) + Count(k, b)
  {
    if |a| > 0 {
      assert (a + b)[1..] == a[1..] + b;
      CountConcat(k, a[1..], b);
    } else {
      assert a + b == b;
    }
  }

  lemma CountSingle(k: Tracked, e: Effect)
    ensures Count(k, [e]) == (if Matches(k, e) then 1 else 0)
  {
    assert [e][1..] == [];
  }

  lemma CountPair(k: Tracked, e: Effect, f: Effect)
    ensures Count(k, [e, f]) == (if Matches(k, e) then 1 else 0) + (if Matches(k, f) then 1 else 0)
  {
    assert [e, f][1..] == [f];
    CountSingle(k, f);
  }

  // ---------------------------------------------------------------------
  // Lifecycle: start, stop, reconnect

  function Start(s: Shard, env: Env): (r: Step)
    // only the session and the missed-ack counter can change
    ensures r.shard.(session := s.session, acksMissed := s.acksMissed) == s
    // an existing session is reused, never replaced
    ensures s.session.Some? ==> r.shard.session == s.session && r.effects == [OpenSocket]
    // without a session, one is created for the gateway URL, unless the URL does not parse
    ensures s.session.None? && env.parsesUrl(s.gatewayUrl) ==>
              r.shard.session == Some(Socket(s.gatewayUrl))
              && r.effects == [CreateSocket(s.gatewayUrl), OpenSocket]
    ensures s.session.None? && !env.parsesUrl(s.gatewayUrl) ==> r == Step(s, [])
    // the missed-ack counter is cleared before the socket is opened, and only then
    ensures Count(SocketOpens, r.effects) == (if s.session.Some? || env.parsesUrl(s.gatewayUrl) then 1 else 0)
    ensures Count(SocketOpens, r.effects) == 1 ==> r.shard.acksMissed == 0 && r.shard.session.Some?
    ensures Count(SocketOpens, r.effects) == 0 ==> r.shard == s
    ensures forall k: Tracked :: !k.SocketOpens? ==> Count(k, r.effects) == 0
  {
    if s.session.None? && !env.parsesUrl(s.gatewayUrl) then
      Step(s, [])
    else if s.session.None? then
      assert forall k: Tracked :: Count(k, [CreateSocket(s.gatewayUrl), OpenSocket]) == (if k.SocketOpens? then 1 else 0) by {
        forall k: Tracked { CountPair(k, CreateSocket(s.gatewayUrl), OpenSocket); }
      }
      Step(s.(session := Some(Socket(s.gatewayUrl)), acksMissed := 0), [CreateSocket(s.gatewayUrl), OpenSocket])
    else
      assert forall k: Tracked :: Count(k, [OpenSocket]) == (if k.SocketOpens? then 1 else 0) by {
        forall k: Tracked { CountSingle(k, OpenSocket); }
      }
      Step(s.(acksMissed := 0), [OpenSocket])
  }

  function Stop(s: Shard): (r: Step)
    ensures !r.shard.isConnected && !r.shard.isReconnecting && r.shard.acksMissed == 0
    // nothing else changes: the session is closed but kept
    ensures r.shard.(isConnected := s.isConnected, isReconnecting := s.isReconnecting, acksMissed := s.acksMissed) == s
    // the session, if any, is closed first; then the stopping line, and nothing else
    ensures r.effects == (if s.session.Some? then [CloseSocket] else []) + [Log(StoppingConnection)]
    ensures Count(SocketCloses, r.effects) == (if s.session.Some? then 1 else 0)
    ensures Count(Logged(StoppingConnection), r.effects) == 1
    ensures forall k: Tracked :: Outward(k) || k.SocketOpens? ==> Count(k, r.effects) == 0
  {
    var stopped := s.(isConnected := false, isReconnecting := false, acksMissed := 0);
    if s.session.Some? then
      assert forall k: Tracked ::
        Count(k, [CloseSocket, Log(StoppingConnection)])
          == (if Matches(k, CloseSocket) then 1 else 0) + (if Matches(k, Log(StoppingConnection)) then 1 else 0) by {
        forall k: Tracked { CountPair(k, CloseSocket, Log(StoppingConnection)); }
      }
      Step(stopped, [CloseSocket, Log(StoppingConnection)])
    else
      assert forall k: Tracked :: Count(k, [Log(StoppingConnection)]) == (if Matches(k, Log(StoppingConnection)) then 1 else 0) by {
        forall k: Tracked { CountSingle(k, Log(StoppingConnection)); }
      }
      Step(stopped, [Log(StoppingConnection)])
  }

  /** Stopping a stopped shard changes nothing more; it only closes and logs again. */
  lemma StopIdempotent(s: Shard)
    ensures Stop(Stop(s).shard).shard == Stop(s).shard
    ensures Stop(Stop(s).shard).effects == Stop(s).effects
  {
  }

  /** Reconnect: close the session if it is open, clear the connection flags, log, then start. */
  function Reconnect(s: Shard, env: Env, socketState: ReadyState): (r: Step)
    ensures !r.shard.isConnected && r.shard.acksMissed == 0
    // the reset happens before start runs, and the state is the one start leaves
    ensures r.shard == Start(s.(isConnected := false, acksMissed := 0), env).shard
    // an open session is closed first; then the resuming line, then everything start does, in order
    ensures r.effects ==
              (if s.session.Some? && socketState == Open then [CloseSocket] else [])
              + [Log(ResumingSession)] + Start(s.(isConnected := false, acksMissed := 0), env).effects
    ensures Count(SocketCloses, r.effects) == (if s.session.Some? && socketState == Open then 1 else 0)
    ensures Count(SocketOpens, r.effects) == Count(SocketOpens, Start(s.(isConnected := false, acksMissed := 0), env).effects)
    ensures Count(Logged(ResumingSession), r.effects) == 1
    ensures forall k: Tracked :: Outward(k) ==> Count(k, r.effects) == 0
  {
    var started := Start(s.(isConnected := false, acksMissed := 0), env);
    var resumed := [Log(ResumingSession)] + started.effects;
    assert forall k: Tracked :: Count(k, resumed) == Count(k, [Log(ResumingSession)]) + Count(k, started.effects) by {
      forall k: Tracked { CountConcat(k, [Log(ResumingSession)], started.effects); }
    }
    if s.session.Some? && socketState == Open then
      assert forall k: Tracked :: Count(k, [CloseSocket] + resumed) == Count(k, [CloseSocket]) + Count(k, resumed) by {
        forall k: Tracked { CountConcat(k, [CloseSocket], resumed); }
      }
      Step(started.shard, [CloseSocket] + resumed)
    else
      Step(started.shard, resumed)
  }

  /** The closure `handleDisconnect` schedules on a loss of internet, when it runs. */
  function DeferredReconnect(s: Shard, env: Env, socketState: ReadyState): (r: Step)
    ensures r.shard == Reconnect(s, env, socketState).shard
    // the warning comes first, then everything a reconnect does, in order
    ensures r.effects == [Warn(LossOfInternet)] + Reconnect(s, env, socketState).effects
    ensures forall k: Tracked :: Count(k, r.effects) == Count(k, Reconnect(s, env, socketState).effects)
  {
    var reconnected := Reconnect(s, env, socketState);
    assert forall k: Tracked :: Count(k, [Warn(LossOfInternet)] + reconnected.effects) == Count(k, reconnected.effects) by {
      forall k: Tracked
        ensures Count(k, [Warn(LossOfInternet)] + reconnected.effects) == Count(k, reconnected.effects)
      {
        CountConcat(k, [Warn(LossOfInternet)], reconnected.effects);
        CountSingle(k, Warn(LossOfInternet));
      }
    }
    Step(reconnected.shard, [Warn(LossOfInternet)] + reconnected.effects)
  }

  // ---------------------------------------------------------------------
  // Inbound: payload routing and close handling

  /** A payload goes to the event handler and to the client when it names an event and its data is a dictionary. */
  predicate Forwardable(p: Payload) {
    p.t.Some? && p.d.JObject?
  }

  function HandlePayload(s: Shard, env: Env, p: Payload): (r: Step)
    // the sequence number is cached first, whatever happens to the payload
    ensures r.shard == s.(lastSeq := if p.s.Some? then p.s else s.lastSeq)
    // without an event name only the gateway handler sees it
    ensures p.t.None? ==> r.effects == [ToGatewayHandler(p)]
    // an event name with non-dictionary data: dropped
    ensures p.t.Some? && !p.d.JObject? ==> r.effects == []
    // otherwise the event handler runs, then exactly one payload emit
    ensures Forwardable(p) ==>
              r.effects == [ToEventHandler(p.d.fields, p.t.value), EmitPayload(env.encode(p))]
    ensures Count(PayloadEmits, r.effects) == (if Forwardable(p) then 1 else 0)
    ensures forall k: Tracked :: !k.PayloadEmits? ==> Count(k, r.effects) == 0
  {
    var cached := if p.s.Some? then s.(lastSeq := p.s) else s;
    if p.t.None? then
      assert forall k: Tracked :: Count(k, [ToGatewayHandler(p)]) == 0 by {
        forall k: Tracked { CountSingle(k, ToGatewayHandler(p)); }
      }
      Step(cached, [ToGatewayHandler(p)])
    else if !p.d.JObject? then
      Step(cached, [])
    else
      var effects := [ToEventHandler(p.d.fields, p.t.value), EmitPayload(env.encode(p))];
      assert forall k: Tracked :: Count(k, effects) == (if k.PayloadEmits? then 1 else 0) by {
        forall k: Tracked { CountPair(k, effects[0], effects[1]); }
      }
      Step(cached, effects)
  }

  /** What a close code calls for. */
  datatype Recovery = NoReconnect | ReconnectNow | ReconnectAfter(seconds: int)

  /** The reconnect policy per close class; `None` is a code the table does not recognise. */
  function Policy(kind: Option<CloseKind>): Recovery {
    if kind.None? then ReconnectNow
    else match kind.value
      case AuthenticationFailed | InvalidShard | ShardingRequired => NoReconnect
      case NoInternet => ReconnectAfter(NoInternetDelay)
      case OtherClose => ReconnectNow
  }

  /** The close classes after which the shard gives up: it prints a line and does not reconnect. */
  predicate Fatal(k: CloseKind) {
    k.AuthenticationFailed? || k.InvalidShard? || k.ShardingRequired?
  }

  /** The console line each fatal class prints. */
  function FatalLine(k: CloseKind): (line: Line)
    requires Fatal(k)
    ensures k.AuthenticationFailed? <==> line == InvalidBotToken
    ensures k.InvalidShard? <==> line == InvalidShardId
    ensures k.ShardingRequired? <==> line == ShardingIsRequired
  {
    match k
    case AuthenticationFailed => InvalidBotToken
    case InvalidShard => InvalidShardId
    case ShardingRequired => ShardingIsRequired
  }

  /** The second half of `handleDisconnect`: look the code up and react to its class. */
  function ReactToClose(s: Shard, env: Env, code: int, socketState: ReadyState): (r: Step)
    ensures r.shard.isReconnecting == s.isReconnecting
    ensures r.shard.isConnected ==> s.isConnected
    // fatal codes: the state is kept and a console line is all that happens
    ensures Policy(Lookup(env.closeOP, code)) == NoReconnect <==> code in env.closeOP && Fatal(env.closeOP[code])
    ensures code in env.closeOP && Fatal(env.closeOP[code]) ==>
              r == Step(s, [Print(FatalLine(env.closeOP[code]))])
    // loss of internet: one deferred reconnect, nothing now
    ensures Lookup(env.closeOP, code) == Some(NoInternet) ==>
              r == Step(s, [ScheduleReconnect(NoInternetDelay)])
    // every other code, recognised or not, reconnects at once
    ensures Policy(Lookup(env.closeOP, code)) == ReconnectNow ==> r.shard == Reconnect(s, env, socketState).shard
    // an unrecognised code is logged before the reconnect; a recognised one reconnects without a line
    ensures code !in env.closeOP ==>
              && |r.effects| >= 1 && r.effects[0] == Log(UnrecognizedResponse(code))
              && r.effects[1..] == Reconnect(s, env, socketState).effects
    ensures Lookup(env.closeOP, code) == Some(OtherClose) ==> r == Reconnect(s, env, socketState)
  {
    var kind := Lookup(env.closeOP, code);
    if kind.None? then
      var reconnected := Reconnect(s, env, socketState);
      Step(reconnected.shard, [Log(UnrecognizedResponse(code))] + reconnected.effects)
    else
      match kind.value
      case AuthenticationFailed => Step(s, [Print(InvalidBotToken)])
      case InvalidShard => Step(s, [Print(InvalidShardId)])
      case NoInternet => Step(s, [ScheduleReconnect(NoInternetDelay)])
      case ShardingRequired => Step(s, [Print(ShardingIsRequired)])
      case OtherClose => Reconnect(s, env, socketState)
  }

  /**
   * Reacting to a close never reaches the client or a bucket, defers a
   * reconnect exactly on a loss of internet, logs an unrecognised code and
   * resumes exactly when the policy says to reconnect now.
   */
  lemma ReactToCloseCounts(s: Shard, env: Env, code: int, socketState: ReadyState)
    ensures var r := ReactToClose(s, env, code, socketState);
            var policy := Policy(Lookup(env.closeOP, code));
            && Count(PayloadEmits, r.effects) == 0
            && Count(DisconnectEmits, r.effects) == 0
            && (forall b :: Count(QueuedTo(b), r.effects) == 0)
            && Count(Deferrals, r.effects) == (if policy.ReconnectAfter? then 1 else 0)
            && Count(Logged(ResumingSession), r.effects) == (if policy == ReconnectNow then 1 else 0)
            && Count(Logged(UnrecognizedResponse(code)), r.effects) == (if code in env.closeOP then 0 else 1)
  {
    var r := ReactToClose(s, env, code, socketState);
    var reconnected := Reconnect(s, env, socketState);
    var kind := Lookup(env.closeOP, code);
    if kind.None? {
      var line := [Log(UnrecognizedResponse(code))];
      assert forall k: Tracked :: Count(k, r.effects) == Count(k, line) + Count(k, reconnected.effects) by {
        forall k: Tracked { CountConcat(k, line, reconnected.effects); }
      }
      CountSingle(Logged(UnrecognizedResponse(code)), Log(UnrecognizedResponse(code)));
      assert Count(Logged(UnrecognizedResponse(code)), reconnected.effects) == 0 by {
        ReconnectLogsOnlyResuming(s, env, socketState, UnrecognizedResponse(code));
      }
    } else if kind.value == OtherClose {
      ReconnectLogsOnlyResuming(s, env, socketState, UnrecognizedResponse(code));
    } else {
      assert |r.effects| == 1;
      forall k ensures Count(k, r.effects) == (if Matches(k, r.effects[0]) then 1 else 0) {
        CountSingle(k, r.effects[0]);
      }
    }
  }

  /** The only line a reconnect logs is the resuming line. */
  lemma ReconnectLogsOnlyResuming(s: Shard, env: Env, socketState: ReadyState, line: Line)
    requires line != ResumingSession
    ensures Count(Logged(line), Reconnect(s, env, socketState).effects) == 0
  {
    var started := Start(s.(isConnected := false, acksMissed := 0), env);
    var resumed := [Log(ResumingSession)] + started.effects;
    CountConcat(Logged(line), [Log(ResumingSession)], started.effects);
    CountSingle(Logged(line), Log(ResumingSession));
    if s.session.Some? && socketState == Open {
      CountConcat(Logged(line), [CloseSocket], resumed);
      CountSingle(Logged(line), CloseSocket);
    }
  }

  function HandleDisconnect(s: Shard, env: Env, code: int, socketState: ReadyState): (r: Step)
    ensures SameIdentity(s, r.shard) && r.shard.lastSeq == s.lastSeq
    ensures r.shard.isConnected ==> s.isConnected
    // the disconnect is announced, with the shard's id, before the code is looked at
    ensures r.shard.isReconnecting
    ensures |r.effects| >= 2 && r.effects[0] == EmitDisconnect(s.id)
    // then exactly what the close code's class calls for, from the flagged state
    ensures r.shard == ReactToClose(s.(isReconnecting := true), env, code, socketState).shard
    ensures r.effects == [EmitDisconnect(s.id)] + ReactToClose(s.(isReconnecting := true), env, code, socketState).effects
    ensures Count(DisconnectEmits, r.effects) == 1
    ensures Count(PayloadEmits, r.effects) == 0
    ensures forall b :: Count(QueuedTo(b), r.effects) == 0
    ensures Count(Deferrals, r.effects) == (if Lookup(env.closeOP, code) == Some(NoInternet) then 1 else 0)
  {
    var reacted := ReactToClose(s.(isReconnecting := true), env, code, socketState);
    ReactToCloseCounts(s.(isReconnecting := true), env, code, socketState);
    var effects := [EmitDisconnect(s.id)] + reacted.effects;
    assert forall k: Tracked :: Count(k, effects) == Count(k, [EmitDisconnect(s.id)]) + Count(k, reacted.effects) by {
      forall k: Tracked { CountConcat(k, [EmitDisconnect(s.id)], reacted.effects); }
    }
    Step(reacted.shard, effects)
  }

  /** `handleDisconnect` on a fatal code: flagged as reconnecting, announced, a console line, and nothing else. */
  lemma FatalCloseOnlyPrints(s: Shard, env: Env, code: int, socketState: ReadyState)
    requires Policy(Lookup(env.closeOP, code)) == NoReconnect
    ensures code in env.closeOP && Fatal(env.closeOP[code])
    ensures var r := HandleDisconnect(s, env, code, socketState);
            && r.shard == s.(isReconnecting := true)
            && r.effects == [EmitDisconnect(s.id), Print(FatalLine(env.closeOP[code]))]
  {
  }

  /** `handleDisconnect` on a loss of internet: one reconnect, ten seconds later, and none now. */
  lemma NoInternetDefersReconnect(s: Shard, env: Env, code: int, socketState: ReadyState)
    requires Lookup(env.closeOP, code) == Some(NoInternet)
    ensures var r := HandleDisconnect(s, env, code, socketState);
            && r.shard == s.(isReconnecting := true)
            && r.effects == [EmitDisconnect(s.id), ScheduleReconnect(NoInternetDelay)]
  {
  }

  /** The text an effect writes to the log or the console, if it writes any. */
  function Written(e: Effect): Option<string> {
    if e.Log? || e.Warn? || e.Print? then Some(Text(e.line)) else None
  }

  /**
   * On an unrecognised code, the first thing written after the disconnect
   * emit is the unrecognised-response line, and that text alone tells which
   * code closed the connection.
   */
  lemma UnrecognizedCloseWritesCode(s: Shard, env: Env, code: int, other: int, socketState: ReadyState)
    requires code !in env.closeOP
    ensures var r := HandleDisconnect(s, env, code, socketState);
            && |r.effects| >= 2
            && Written(r.effects[1])
               == Some("Connection closed with unrecognized response " + Decimal.IntToString(code) + ".")
            && (Written(r.effects[1]) == Some(Text(UnrecognizedResponse(other))) ==> other == code)
  {
    UnrecognizedLineNamesCode(code, other);
  }

  /** `handleDisconnect` on any other code reconnects at once; an unrecognised one is logged first. */
  lemma RecoverableCloseReconnects(s: Shard, env: Env, code: int, socketState: ReadyState)
    requires Policy(Lookup(env.closeOP, code)) == ReconnectNow
    ensures var r := HandleDisconnect(s, env, code, socketState);
            && r.shard == Reconnect(s.(isReconnecting := true), env, socketState).shard
            && r.effects == [EmitDisconnect(s.id)]
                            + (if code in env.closeOP then [] else [Log(UnrecognizedResponse(code))])
                            + Reconnect(s.(isReconnecting := true), env, socketState).effects
            && Count(Logged(ResumingSession), r.effects) == 1
            && Count(Logged(UnrecognizedResponse(code)), r.effects) == (if code in env.closeOP then 0 else 1)
  {
    var r := HandleDisconnect(s, env, code, socketState);
    var reacted := ReactToClose(s.(isReconnecting := true), env, code, socketState);
    ReactToCloseCounts(s.(isReconnecting := true), env, code, socketState);
    assert r.effects == [EmitDisconnect(s.id)] + reacted.effects;
    CountConcat(Logged(ResumingSession), [EmitDisconnect(s.id)], reacted.effects);
    CountConcat(Logged(UnrecognizedResponse(code)), [EmitDisconnect(s.id)], reacted.effects);
    CountSingle(Logged(ResumingSession), EmitDisconnect(s.id));
    CountSingle(Logged(UnrecognizedResponse(code)), EmitDisconnect(s.id));
    if code !in env.closeOP {
      assert reacted.effects == [Log(UnrecognizedResponse(code))] + reacted.effects[1..];
    }
  }

  // ---------------------------------------------------------------------
  // Outbound: sends and the commands built on them

  function Send(s: Shard, text: string, presence: bool): (r: Step)
    ensures r.shard == s
    ensures |r.effects| == 1 && r.effects[0].Enqueue? && r.effects[0].text == text
    ensures r.effects[0].bucket == (if presence then s.presenceBucket else s.globalBucket)
  {
    Step(s, [Enqueue(if presence then s.presenceBucket else s.globalBucket, text)])
  }

  /** On a well-formed shard the presence bucket (5 per 60 s) is used exactly for presence sends. */
  lemma SendRouting(s: Shard, text: string, presence: bool)
    requires Wf(s)
    ensures Send(s, text, presence).effects[0].bucket == s.presenceBucket <==> presence
    ensures Send(s, text, presence).effects[0].bucket.limit == (if presence then 5 else 120)
    ensures Send(s, text, presence).effects[0].bucket.interval == 60
  {
    BucketNamesIdentifyShard(s.id, s.id);
  }

  /** The codec reads back every payload it writes, as the gateway's decoder does. */
  ghost predicate CodecRoundTrips(env: Env) {
    forall p: Payload :: env.decode(env.encode(p)) == p
  }

  /** `v` is a dictionary whose `key` holds `x`. */
  predicate HasField(v: Value, key: string, x: Value) {
    v.JObject? && key in v.fields && v.fields[key] == x
  }

  /** `v` is a dictionary whose `key` holds the decimal text of `id`. */
  predicate ReadsBackAs(v: Value, key: string, id: nat) {
    && v.JObject? && key in v.fields && v.fields[key].JString?
    && Decimal.AllDigits(v.fields[key].str) && Decimal.ParseNat(v.fields[key].str) == id
  }

  /** One submission to the global bucket, and no change of state. */
  predicate QueuesOnGlobal(s: Shard, r: Step) {
    r.shard == s && |r.effects| == 1 && r.effects[0].Enqueue? && r.effects[0].bucket == s.globalBucket
  }

  /**
   * Identify queues, on the global bucket, an identify command naming this
   * shard's [id, shardCount] pair and the client's token, with a presence
   * exactly when the client has one.
   */
  function Identify(s: Shard, env: Env, osName: string): (r: Step)
    ensures QueuesOnGlobal(s, r)
    ensures CodecRoundTrips(env) ==>
              env.decode(r.effects[0].text)
                == Commands.IdentifyPayload(env.token, env.intents, env.presence, osName, s.id, s.shardCount)
    ensures CodecRoundTrips(env) ==>
              var p := env.decode(r.effects[0].text);
              && p.op == Payloads.Identify && p.d.JObject?
              && HasField(p.d, "shard", JArray([JNumber(s.id), JNumber(s.shardCount)]))
              && HasField(p.d, "token", JString(env.token))
              && ("presence" in p.d.fields <==> env.presence.Some?)
  {
    var identity := Commands.IdentifyPayload(env.token, env.intents, env.presence, osName, s.id, s.shardCount);
    Send(s, env.encode(identity), false)
  }

  /** Joining queues, on the global bucket, a voice-state update whose ids read back as the channel and guild, unmuted and undeafened. */
  function JoinVoiceChannel(s: Shard, env: Env, channelId: Snowflake, guildId: Snowflake): (r: Step)
    ensures QueuesOnGlobal(s, r)
    ensures CodecRoundTrips(env) ==> env.decode(r.effects[0].text) == Commands.JoinVoicePayload(channelId, guildId)
    ensures CodecRoundTrips(env) ==>
              var p := env.decode(r.effects[0].text);
              && p.op == VoiceStateUpdate
              && ReadsBackAs(p.d, "guild_id", guildId)
              && ReadsBackAs(p.d, "channel_id", channelId)
              && HasField(p.d, "self_mute", JBool(false)) && HasField(p.d, "self_deaf", JBool(false))
  {
    Commands.GuildIdReadsBack(channelId, guildId);
    Send(s, env.encode(Commands.JoinVoicePayload(channelId, guildId)), false)
  }

  /** Leaving queues, on the global bucket, a voice-state update for the guild with no channel. */
  function LeaveVoiceChannel(s: Shard, env: Env, guildId: Snowflake): (r: Step)
    ensures QueuesOnGlobal(s, r)
    ensures CodecRoundTrips(env) ==> env.decode(r.effects[0].text) == Commands.LeaveVoicePayload(guildId)
    ensures CodecRoundTrips(env) ==>
              var p := env.decode(r.effects[0].text);
              && p.op == VoiceStateUpdate
              && ReadsBackAs(p.d, "guild_id", guildId)
              && HasField(p.d, "channel_id", JNull)
              && HasField(p.d, "self_mute", JBool(false)) && HasField(p.d, "self_deaf", JBool(false))
  {
    Commands.GuildIdReadsBack(0, guildId);
    Send(s, env.encode(Commands.LeaveVoicePayload(guildId)), false)
  }

  /** Requesting members queues, on the global bucket, an unfiltered, unlimited member request for the guild. */
  function RequestOfflineMembers(s: Shard, env: Env, guildId: Snowflake): (r: Step)
    ensures QueuesOnGlobal(s, r)
    ensures CodecRoundTrips(env) ==> env.decode(r.effects[0].text) == Commands.RequestOfflineMembersPayload(guildId)
    ensures CodecRoundTrips(env) ==>
              var p := env.decode(r.effects[0].text);
              && p.op == RequestGuildMember
              && ReadsBackAs(p.d, "guild_id", guildId)
              && HasField(p.d, "query", JString("")) && HasField(p.d, "limit", JNumber(0))
  {
    Commands.GuildIdReadsBack(0, guildId);
    Send(s, env.encode(Commands.RequestOfflineMembersPayload(guildId)), false)
  }
}
